=== FILE: README.md ===
# Clean-MVVM feature scaffolder, modelled in Dafny

This project models the IntelliJ action `CreateCleanMvvmFeatureAction`. The
action scaffolds one feature of a Flutter application laid out in the clean
MVVM style. It works in four steps:

1. It asks for a feature name and an application name.
2. It gives up if there is no selected directory, or if either dialog is
   cancelled or answered with a blank string.
3. It creates eleven directories under `<selected>/<snake_case feature name>`.
4. It writes thirteen Dart files whose paths, imports and identifiers are all
   derived from three spellings of the names. Those spellings are the
   snake-case feature name, the capitalised feature name and the lower-cased
   application name.

The model has five modules:

- `Naming` covers `toSnakeCase`, `capitalize`, `lowercase` and `isBlank`.
  - The regex rewrite `([a-z])([A-Z]+)` → `$1_$2` is modelled as the
    left-to-right scan a regex engine performs (`SplitCamel`). That scan is
    proved equal to a simpler reference definition, which puts one underscore
    at every lower-to-upper boundary (`MarkBoundaries`).
  - `isBlank()` is checked against a second definition: nothing is left once
    the leading whitespace is trimmed (`TrimStart`).
  - `DeriveNames` gives the three spellings of one invocation.
- `DirectoryPlan` is the fixed list of eleven directories, each in the data,
  domain or presentation layer.
- `TemplateCatalog` covers the thirteen templates. Each one is rendered to a
  record (`DartFile`) holding:
  - the path it is written to;
  - its third-party imports;
  - its imports inside the application package;
  - its `part` files;
  - the feature-named classes, members, fields and functions it declares,
    and the ones it uses.

  The contracts and lemmas prove the following:
  - no two templates share a path;
  - every in-package import of a feature file names, below
    `package:<app>/features/<snake>/`, exactly the path another template is
    written to below the feature's base directory;
  - every feature-named identifier a file uses is declared in that file or in
    a file it imports directly;
  - exactly the files with a `part` directive import the JSON annotations;
  - the domain layer imports only the domain layer;
  - the import graph is acyclic.
- `FileSystem` models the two calls the action makes, `File.mkdirs()` and
  `File.writeText()`, as operations on a state of directories and files.
  - A write whose parent directory is missing throws, which ends the action.
    This is modelled by an `aborted` flag; once it is set, every later call
    of the same invocation does nothing. The next invocation starts afresh.
  - `Disk` is the imperative view of that state.
- `ScaffoldEngine` holds `Plan`, the whole sequence of calls one invocation
  makes as a function of the selection and the dialog replies, and the
  imperative methods `ActionPerformed`, `CreateDirectoryStructure` (with its
  `mkdirs` loop) and `GenerateTemplateClasses` (thirteen straight-line
  writes). Each method is proved to leave the disk in the state `Run` gives
  for the plan. The lemmas prove that:
  - a declined invocation changes nothing;
  - an accepted one creates every planned directory, puts every rendered
    template at its path and leaves every other file alone;
  - running it twice gives the same result as running it once.

Two behaviours of the code are worth stating plainly:

- **The application name is not trimmed.** The code lower-cases the
  application name exactly as entered (`CreateCleanMvvmFeatureAction.kt:66`).
  Trimming plays a part only in the blank check: `isBlank()` is true exactly
  when the name is empty or all whitespace.
- **A feature name containing `/`.** The snake-case name is then more than one
  path segment. When some `/` follows another character (`a/b`, `a/`), the
  write of the first file goes to a directory that `mkdirs` never created, so
  it throws. The model reproduces this: `Apply` sets `aborted`. When every `/`
  comes first (`/settings`), `java.io.File` collapses the repeated `/`,
  the parents exist and all thirteen writes succeed; the model, which keys
  paths as strings, aborts here as well. The effect lemmas (`ScaffoldEffect`,
  `ScaffoldOutcome`, `ActionEffect`) require a feature name free of `/`.
  On Windows `java.io.File` treats a `\` as it treats a `/`, so a name such
  as `a\b` makes the first write throw; the model assumes POSIX paths,
  and `ActionEffect` also requires a feature name free of `\`.

## Model

| member | source | states |
|---|---|---|
| `Naming.Lowercase` | CreateCleanMvvmFeatureAction.kt:66 | the result has the input's length and no upper-case letter; each upper-case letter becomes its lower-case partner and every other character is kept |
| `Naming.ReplaceSpaces` | CreateCleanMvvmFeatureAction.kt:477 | the result has the input's length and no space; each space becomes `_` and every other character is kept |
| `Naming.UpperRun` | CreateCleanMvvmFeatureAction.kt:476 | the greedy `[A-Z]+` run: every character inside it is upper case and the character after it is not |
| `Naming.SplitCamel` | CreateCleanMvvmFeatureAction.kt:476 | the regex scan keeps the first character, never shortens the name and adds no character other than `_` |
| `Naming.SplitCamelMarksBoundaries` | CreateCleanMvvmFeatureAction.kt:476 | the regex scan inserts exactly one `_` inside every lower-to-upper boundary and nothing else |
| `Naming.MarkBoundariesLength` | CreateCleanMvvmFeatureAction.kt:476 | marking boundaries lengthens the name by the number of boundaries |
| `Naming.MarkBoundariesSkipsRun` | CreateCleanMvvmFeatureAction.kt:476 | a stretch without lower-case letters contains no boundary, so the matcher can skip an upper-case run whole |
| `Naming.MarkBoundariesNone` | CreateCleanMvvmFeatureAction.kt:476 | a name without a lower-to-upper boundary is left as it is |
| `Naming.MarkBoundariesJoin` | CreateCleanMvvmFeatureAction.kt:476 | joining a word that ends lower case to one that starts upper case puts one `_` at the seam |
| `Naming.SplitCamelKeepsNoUpper` | CreateCleanMvvmFeatureAction.kt:476 | a name without upper-case letters gives the regex nothing to match |
| `Naming.MarkBoundariesChars` | CreateCleanMvvmFeatureAction.kt:476 | marking boundaries adds only underscores |
| `Naming.ToSnakeCase` | CreateCleanMvvmFeatureAction.kt:475-479 | the snake-case name has no upper-case letter and no space, and is one character longer per camel-case boundary |
| `Naming.SnakeCaseByBoundaries` | CreateCleanMvvmFeatureAction.kt:475-479 | `toSnakeCase` equals the reference definition: mark boundaries, replace spaces, lower-case |
| `Naming.SnakeCaseTwoWords` | CreateCleanMvvmFeatureAction.kt:475-479 | two camel-case words come out joined by one `_` |
| `Naming.SnakeCaseIdempotent` | CreateCleanMvvmFeatureAction.kt:475-479 | re-deriving a snake-case name changes nothing |
| `Naming.SnakeCaseFixed` | CreateCleanMvvmFeatureAction.kt:475-479 | a name with neither capitals nor spaces is already in snake case |
| `Naming.SnakeCaseKeepsNoSlash` | CreateCleanMvvmFeatureAction.kt:33 | a feature name free of `/` gives a base-directory segment free of `/` |
| `Naming.Capitalize` | CreateCleanMvvmFeatureAction.kt:482-484 | same length; only the first character can change, and it changes exactly when it is lower case, into its upper-case partner; the result never starts lower case |
| `Naming.CapitalizeIdempotent` | CreateCleanMvvmFeatureAction.kt:482-484 | capitalising twice is capitalising once |
| `Naming.IsWhitespace` | CreateCleanMvvmFeatureAction.kt:23-28 | the JVM whitespace set of `isBlank()`; no letter, digit or `_` is whitespace |
| `Naming.TrimStartEmpty` | CreateCleanMvvmFeatureAction.kt:23-28 | trimming the leading whitespace leaves nothing exactly when every character is whitespace |
| `Naming.IsBlank` | CreateCleanMvvmFeatureAction.kt:23-28 | a reply is blank exactly when trimming its leading whitespace leaves nothing |
| `Naming.DeriveNames` | CreateCleanMvvmFeatureAction.kt:63-66 | the snake-case name is free of capitals and spaces and re-derives to itself; the type-name stem keeps the name's length and does not start lower case; the package root has no capitals |
| `NamingExamples.SnakeCaseUserProfile` | CreateCleanMvvmFeatureAction.kt:475-479 | `UserProfile` becomes `user_profile` |
| `NamingExamples.SnakeCaseUpperRun` | CreateCleanMvvmFeatureAction.kt:476 | `myABCFeature` becomes `my_abcfeature`: the whole upper-case run follows one `_` |
| `NamingExamples.SnakeCaseNoBoundary` | CreateCleanMvvmFeatureAction.kt:475-479 | `feature` is left unchanged |
| `NamingExamples.CapitalizeExamples` | CreateCleanMvvmFeatureAction.kt:482-484 | `settings` becomes `Settings`; `UserProfile` and the empty name are unchanged |
| `NamingExamples.LowercaseAppName` | CreateCleanMvvmFeatureAction.kt:66 | `MyApp` lower-cases to `myapp`; the spaces around ` My App ` are kept |
| `DirectoryPlan.Directories` | CreateCleanMvvmFeatureAction.kt:41-53 | the plan has eleven directories, each under `data/`, `domain/` or `presentation/` |
| `DirectoryPlan.DirectoriesDistinct` | CreateCleanMvvmFeatureAction.kt:41-53 | no directory is planned twice |
| `DirectoryPlan.DirectoriesNotNested` | CreateCleanMvvmFeatureAction.kt:41-53 | no planned directory is an ancestor of another |
| `TemplateCatalog.Catalog` | CreateCleanMvvmFeatureAction.kt:126-469 | thirteen files, written in source order, no role twice |
| `TemplateCatalog.CatalogComplete` | CreateCleanMvvmFeatureAction.kt:126-469 | every role is written |
| `TemplateCatalog.DirIndex` | CreateCleanMvvmFeatureAction.kt:126-469 | every file goes into one of the planned directories |
| `TemplateCatalog.Path` | CreateCleanMvvmFeatureAction.kt:126-469 | a file's path is its planned directory, `/`, then the snake-case name and the role's `_<role>.dart` tail |
| `TemplateCatalog.SameDirectory` | CreateCleanMvvmFeatureAction.kt:41-53 | a path that starts with a planned directory and `/` determines that directory and the rest |
| `TemplateCatalog.SharedDirectory` | CreateCleanMvvmFeatureAction.kt:146-172 | two files in the same directory have file-name tails of different lengths |
| `TemplateCatalog.PathInjective` | CreateCleanMvvmFeatureAction.kt:126-469 | equal paths mean equal roles, whatever the snake-case name |
| `TemplateCatalog.PathsDistinct` | CreateCleanMvvmFeatureAction.kt:126-469 | no two files overwrite each other |
| `TemplateCatalog.TailHasNoSlash` | CreateCleanMvvmFeatureAction.kt:126-469 | each file lies directly in its planned directory |
| `TemplateCatalog.EveryDirectoryUsed` | CreateCleanMvvmFeatureAction.kt:41-53 | every planned directory receives at least one file |
| `TemplateCatalog.FeatureImport` | CreateCleanMvvmFeatureAction.kt:197-200 | an import of a feature file lies inside `package:<app>/` |
| `TemplateCatalog.CoreImport` | CreateCleanMvvmFeatureAction.kt:387-389 | an import of a core helper lies inside `package:<app>/` |
| `TemplateCatalog.Libraries` | CreateCleanMvvmFeatureAction.kt:72-462 | every third-party import is a `package:` import, and the JSON annotations are imported exactly by the request and the response |
| `TemplateCatalog.Imports` | CreateCleanMvvmFeatureAction.kt:151-469 | every in-package import lies inside `package:<app>/`; there is one per generated file the file depends on, and three more for the screen |
| `TemplateCatalog.Parts` | CreateCleanMvvmFeatureAction.kt:134-155 | only the request and the response have a `part` directive, and it is named after the feature |
| `TemplateCatalog.PartsNameTheirFile` | CreateCleanMvvmFeatureAction.kt:134-155 | the `part` of the request and of the response is the file's own name with its `.dart` extension replaced by `.g.dart` |
| `TemplateCatalog.Declares` | CreateCleanMvvmFeatureAction.kt:71-469 | every file declares at least one feature-named identifier, and the first is the one it is named after, which starts with the capitalised feature name (the snake-case name for the screen-content builder) |
| `TemplateCatalog.References` | CreateCleanMvvmFeatureAction.kt:196-456 | every feature-named identifier a file uses is declared in it or in a file it imports directly |
| `TemplateCatalog.Render` | CreateCleanMvvmFeatureAction.kt:71-469 | a rendered file lies in its planned directory, and imports the JSON annotations exactly when it has a `part` directive |
| `TemplateCatalog.DirSpellings` | CreateCleanMvvmFeatureAction.kt:126-469 | the directory spelled inside each import and each of the thirteen writes is the planned directory of that file |
| `TemplateCatalog.ImportNames` | CreateCleanMvvmFeatureAction.kt:239 | an import spelled with a role's directory and tail names that role's file |
| `TemplateCatalog.ImportsResolve` | CreateCleanMvvmFeatureAction.kt:151-469 | each file's in-package imports are exactly (for the screen, the three core helpers, then) below `package:<app>/features/<snake>/`, the paths below the base directory where the files it depends on are written |
| `TemplateCatalog.RepositoryImplImports` | CreateCleanMvvmFeatureAction.kt:197-200 | the repository implementation imports the model, response, API and repository files |
| `TemplateCatalog.ViewModelImports` | CreateCleanMvvmFeatureAction.kt:324-327 | the view model imports the data store, use case, event and UI-state files |
| `TemplateCatalog.ScreenImports` | CreateCleanMvvmFeatureAction.kt:387-393 | the screen imports the three core helpers, then the event, UI-state, view-model and screen-content files |
| `TemplateCatalog.DomainIsIndependent` | CreateCleanMvvmFeatureAction.kt:238-266 | a file under `domain/` imports only files under `domain/` |
| `TemplateCatalog.ImportsAcyclic` | CreateCleanMvvmFeatureAction.kt:151-469 | every import goes to a file of lower rank, so the imports form no cycle |
| `FileSystem.Ancestors` | CreateCleanMvvmFeatureAction.kt:56 | the ancestors `mkdirs` creates are the proper prefixes of the path that end before a `/` |
| `FileSystem.LastSlash` | CreateCleanMvvmFeatureAction.kt:126 | the last `/` of a path, which separates the parent directory a write needs |
| `FileSystem.Apply` | CreateCleanMvvmFeatureAction.kt:56-469 | one call never removes a directory, changes files only by a write at its own path, and does nothing once a write has thrown |
| `FileSystem.Run` | CreateCleanMvvmFeatureAction.kt:55-469 | a sequence of calls never removes a directory and does nothing once a write has thrown |
| `FileSystem.RunAppend` | CreateCleanMvvmFeatureAction.kt:55-60 | running two call sequences one after the other is running their concatenation |
| `FileSystem.RunMakeDirs` | CreateCleanMvvmFeatureAction.kt:55-57 | a run of `mkdirs` calls adds exactly the named directories and their ancestors |
| `FileSystem.RunWrites` | CreateCleanMvvmFeatureAction.kt:126-469 | writes whose parents exist succeed, leave directories alone and overlay their contents on the old files |
| `FileSystem.WrittenAt` | CreateCleanMvvmFeatureAction.kt:126-469 | a write survives when no later write hits the same path |
| `FileSystem.WrittenKeys` | CreateCleanMvvmFeatureAction.kt:126-469 | the writes touch exactly the paths they name |
| `FileSystem.RunScaffold` | CreateCleanMvvmFeatureAction.kt:55-60 | `mkdirs` calls followed by writes into directories that then exist add the directories and overlay the written files |
| `FileSystem.RunTwice` | CreateCleanMvvmFeatureAction.kt:55-60 | repeating such `mkdirs` calls and writes changes nothing |
| `FileSystem.Disk.MakeDirs` | CreateCleanMvvmFeatureAction.kt:56 | the disk's new state is one `mkdirs` applied to its old state |
| `FileSystem.Disk.WriteText` | CreateCleanMvvmFeatureAction.kt:126 | the disk's new state is one `writeText` applied to its old state: the file is replaced if its parent exists, otherwise the action is aborted |
| `ScaffoldEngine.BasePath` | CreateCleanMvvmFeatureAction.kt:33 | the base directory starts with the selected path and `/`; for a feature name free of `/` it lies directly in the selected directory |
| `ScaffoldEngine.DirectoryOps` | CreateCleanMvvmFeatureAction.kt:55-57 | one `mkdirs` call per planned directory, every one under the base directory |
| `ScaffoldEngine.WriteOps` | CreateCleanMvvmFeatureAction.kt:126-469 | one write per catalogue entry |
| `ScaffoldEngine.Plan` | CreateCleanMvvmFeatureAction.kt:17-34 | no calls at all exactly when the selection is missing or a reply is cancelled or blank; otherwise eleven `mkdirs` calls followed by thirteen writes |
| `ScaffoldEngine.WritePathsDistinct` | CreateCleanMvvmFeatureAction.kt:126-469 | the thirteen writes go to thirteen different paths |
| `ScaffoldEngine.LastSlashAfter` | CreateCleanMvvmFeatureAction.kt:126 | the parent of `dir/name` is `dir` when `name` has no `/` |
| `ScaffoldEngine.ParentOfFile` | CreateCleanMvvmFeatureAction.kt:126 | a file `base/dir/name` lies in `base/dir` |
| `ScaffoldEngine.ParentOfWrite` | CreateCleanMvvmFeatureAction.kt:126-469 | each file's parent is its planned directory under the base directory |
| `ScaffoldEngine.CreatedIncludes` | CreateCleanMvvmFeatureAction.kt:55-57 | each `mkdirs` call creates the directory it names |
| `ScaffoldEngine.WriteLands` | CreateCleanMvvmFeatureAction.kt:55-60 | once the planned directories exist, a file's parent exists |
| `ScaffoldEngine.WritesLandInPlannedDirectories` | CreateCleanMvvmFeatureAction.kt:55-60 | after the `mkdirs` loop, none of the thirteen writes throws |
| `ScaffoldEngine.GeneratedFiles` | CreateCleanMvvmFeatureAction.kt:126-469 | each generated path holds its rendered template, and no other path is written |
| `ScaffoldEngine.ScaffoldEffect` | CreateCleanMvvmFeatureAction.kt:40-60 | the directories and ancestors are added and the thirteen files overlay the old ones; running the calls again changes nothing |
| `ScaffoldEngine.PlannedDirectoriesCreated` | CreateCleanMvvmFeatureAction.kt:55-57 | every planned directory exists under the base directory after the loop |
| `ScaffoldEngine.ScaffoldOutcome` | CreateCleanMvvmFeatureAction.kt:40-60 | after the loop and the writes nothing has thrown, every planned directory exists, each generated path holds its rendered template, no other file appears, and every other file keeps its content |
| `ScaffoldEngine.DeclinedChangesNothing` | CreateCleanMvvmFeatureAction.kt:17-30 | a missing selection, or a cancelled or blank reply, leaves the disk untouched |
| `ScaffoldEngine.ActionEffect` | CreateCleanMvvmFeatureAction.kt:11-60 | the outcome above holds for an accepted invocation, under `<selected>/<snake-case name>` with the names derived from the two replies |
| `ScaffoldEngine.Emit` | CreateCleanMvvmFeatureAction.kt:126 | the `k`-th write of the catalogue extends the run of the first `k` writes |
| `ScaffoldEngine.GenerateTemplateClasses` | CreateCleanMvvmFeatureAction.kt:63-469 | the disk ends in the state the thirteen writes of the derived names produce |
| `ScaffoldEngine.CreateDirectoryStructure` | CreateCleanMvvmFeatureAction.kt:40-61 | the disk ends in the state the eleven `mkdirs` calls and then the thirteen writes produce |
| `ScaffoldEngine.ActionPerformed` | CreateCleanMvvmFeatureAction.kt:11-38 | a write that threw in an earlier invocation does not stop this one; the disk ends in the state the plan of this invocation produces |

## Left out

- The refresh of the IntelliJ project view (`CreateCleanMvvmFeatureAction.kt:37`) is host-editor I/O with no effect on the files. It is not modelled.
- The IntelliJ event, the project and the selected `VirtualFile` are not modelled; the selection is reduced to `Option<string>`, its path. The dialogs are reduced to their replies, `Option<string>`, where `None` means cancelled. A cancelled or blank feature-name reply ends the action before the second dialog. That ordering has no effect on the disk and is not modelled.
- Disk errors other than a missing parent directory are not modelled: permissions, a full disk, or a path already taken by a file of the other kind. Such a call succeeds in the model. A failing `mkdirs()` returns `false` in Java and the code ignores it, so the model does the same.
- The full text of each template is not modelled: `trimIndent` layout, comments, method bodies and Dart code that does not involve the feature name. Each template is modelled by the parts that link the files to each other: path, imports, `part` files, and the feature-named identifiers it declares and uses.
- The JSON code generator's `_$…FromJson` / `_$…ToJson` symbols are defined in the generated `.g.dart` parts, not in any file this action writes. They are recorded only as the `part` names. Local variables and non-feature identifiers are not tracked either.
- `ScaffoldEngine.ScaffoldEffect`: files and directories are keyed by their path strings, and `.`, `..` and repeated `/` are not resolved as Java resolves them. The lemma therefore excludes the snake-case names `.` and `..`, under which two different strings name the same file. It also treats the base path and the paths already on disk as canonical, as IntelliJ reports the selected directory. POSIX path syntax is assumed: on Windows `java.io.File` also splits paths at `\`, so a `\` in the feature name after another character (`a\b`) makes the first write throw just as `a/b` does, while the model sees a single path segment.
- `ScaffoldEngine.ScaffoldOutcome`: makes the same exclusion as `ScaffoldEffect`. For the names `.` and `..`, "every other file keeps its content" is not promised: the writes then land in the selected directory or its parent, where they may overwrite a file spelled differently. The lemma also assumes a case-sensitive file system: on a case-insensitive one (the default on macOS and Windows) an existing file whose path differs from a generated path only in letter case is overwritten, which "every other file keeps its content" does not cover. POSIX path syntax is assumed: on Windows `java.io.File` also splits paths at `\`, so a `\` in the feature name after another character (`a\b`) makes the first write throw just as `a/b` does, while the model sees a single path segment.
- `ScaffoldEngine.ActionEffect`: requires that the snake-case feature name is not `.` or `..`, for the same reason, and assumes a case-sensitive file system as `ScaffoldOutcome` does. It requires a feature name free of `\`, because on Windows such a name makes the first write throw (`CreateCleanMvvmFeatureAction.kt:126`), which the model, splitting paths only at `/`, does not reproduce.
- `FileSystem.Apply`: does not collapse repeated `/` as `java.io.File` does. For a feature name whose every `/` is leading (`/settings`), Java's writes find their parents and succeed, while the model's first write finds no parent under its string key and aborts. POSIX path syntax is assumed: on Windows `java.io.File` also splits paths at `\`, so a `\` in the feature name after another character (`a\b`) makes the first write throw just as `a/b` does, while the model sees a single path segment.
- `ScaffoldEngine.ActionPerformed`: for a feature name whose every `/` is leading, the model ends with the directories created and no file written, while the code writes all thirteen files into `<selected>/<name without leading slashes>`; the cause is the string keying of `FileSystem.Apply`. POSIX path syntax is assumed: on Windows `java.io.File` also splits paths at `\`, so a `\` in the feature name after another character (`a\b`) makes the first write throw just as `a/b` does, while the model sees a single path segment.
- `Naming.Lowercase`: casing is modelled on ASCII letters only. The `[a-z]`/`[A-Z]` classes of the regex are ASCII, but Kotlin's `lowercase()` and `titlecase()` also map non-ASCII letters.
- `Naming.Capitalize`: title case is modelled on ASCII only: a non-ASCII lower-case first letter is kept, while `titlecase()` maps it.
- The generated imports reach the written files only when the selected directory is the `lib/features` directory of a Dart package whose name is the lower-cased application name. The action checks neither, and an application name typed with spaces around it (not trimmed, `CreateCleanMvvmFeatureAction.kt:66`) names no package. The model states each import relative to `package:<app>/features/<snake>/` and the write paths relative to the base directory; the package layout that joins the two is not modelled.
- Dart compilation and the runtime behaviour of the generated application (streams, dependency injection, navigation) are outside this model.

=== FILE: directory_plan.dfy ===
/**
 * The fixed directory plan of a feature: eleven directories, relative to
 * the feature's base directory, across the data, domain and presentation
 * layers.
 */
module DirectoryPlan {

  /** The planned directories, in the order they are created. */
  function Directories(): (ds: seq<string>)
    ensures |ds| == 11
    ensures forall d :: d in ds ==> "data/" <= d || "domain/" <= d || "presentation/" <= d
  {
    [
      "data/data_store",
      "data/entities",
      "data/network",
      "data/repositories",
      "domain/entities",
      "domain/repository",
      "domain/usecases",
      "presentation/event",
      "presentation/state",
      "presentation/viewmodel",
      "presentation/widgets" ]
  }

  /** No directory is planned twice. */
  lemma DirectoriesDistinct()
    ensures forall i, j :: 0 <= i < j < |Directories()| ==> Directories()[i] != Directories()[j]
  {
  }

  /**
   * No planned directory is an ancestor of another, so a path
   * `d + "/" + rest` names its planned directory `d` unambiguously.
   */
  lemma DirectoriesNotNested()
    ensures forall d, e :: d in Directories() && e in Directories() && d != e ==> !(d + "/" <= e + "/")
  {
    NotAncestors(Directories());
  }

  /**
   * Non-empty paths none of which reaches, at the length of a shorter one
   * with the same first character, a `/` are never ancestors of one another.
   */
  lemma NotAncestors(ds: seq<string>)
    requires forall d :: d in ds ==> |d| > 0
    requires forall d, e :: d in ds && e in ds && |d| < |e| ==> e[|d|] != '/' || d[0] != e[0]
    ensures forall d, e :: d in ds && e in ds && d != e ==> !(d + "/" <= e + "/")
  {
    forall d, e | d in ds && e in ds && d != e
      ensures !(d + "/" <= e + "/")
    {
      if |d| < |e| {
        if e[|d|] != '/' {
          assert (d + "/")[|d|] != (e + "/")[|d|];
        } else {
          assert (d + "/")[0] != (e + "/")[0];
        }
      } else if |d| == |e| {
        assert (d + "/")[..|d|] == d && (e + "/")[..|d|] == e;
      }
    }
  }
}

=== FILE: file_system.dfy ===
/**
 * The slice of `java.io.File` the generator uses: `mkdirs()` creates a
 * directory together with every missing ancestor, and `writeText` replaces
 * the whole content of a file, or throws when its parent directory does not
 * exist. A thrown write ends the action, so every later operation of the
 * same run is skipped.
 */
module FileSystem {
  import opened TemplateCatalog

  /** One file-system call of the generator. */
  datatype Op =
    | MakeDirs(path: string)
    | WriteText(path: string, file: DartFile)

  /**
   * The directories and files that exist, and whether a write has thrown
   * (after which the action performs nothing more).
   */
  datatype FsState = FsState(dirs: set<string>, files: map<string, DartFile>, aborted: bool)

  /** The proper ancestors of a `/`-separated path: every prefix that ends just before a `/`. */
  function Ancestors(path: string): (a: set<string>)
    ensures forall d :: d in a ==> |d| < |path| && path[|d|] == '/' && path[..|d|] == d
  {
    set i | 0 < i < |path| && path[i] == '/' :: path[..i]
  }

  /** `mkdirs()`: the directory and all its ancestors exist afterwards. */
  function Lineage(path: string): set<string> {
    {path} + Ancestors(path)
  }

  /** Position of the last `/` of `path`, or -1 when it has none. */
  function LastSlash(path: string): (k: int)
    ensures -1 <= k < |path|
    ensures k >= 0 ==> path[k] == '/'
    ensures forall i :: k < i < |path| ==> path[i] != '/'
  {
    if |path| == 0 then -1
    else if path[|path| - 1] == '/' then |path| - 1
    else LastSlash(path[..|path| - 1])
  }

  /**
   * Whether the directory that would contain `path` exists; a path with no
   * `/` lies in the working directory, which always exists.
   */
  predicate ParentExists(s: FsState, path: string) {
    var k := LastSlash(path);
    k < 0 || path[..k] in s.dirs
  }

  /**
   * The effect of one call; nothing happens once a write has thrown.
   * Directories are never removed, and only a write changes the files, at
   * its own path.
   */
  function Apply(s: FsState, op: Op): (t: FsState)
    ensures s.aborted ==> t == s
    ensures s.dirs <= t.dirs
    ensures t.files == s.files || (op.WriteText? && t.files == s.files[op.path := op.file])
  {
    if s.aborted then s
    else match op
      case MakeDirs(p) => s.(dirs := s.dirs + Lineage(p))
      case WriteText(p, f) =>
        if ParentExists(s, p) then s.(files := s.files[p := f]) else s.(aborted := true)
  }

  /**
   * The effect of a sequence of calls, performed in order. Directories are
   * never removed, and after a throw nothing changes.
   */
  function Run(s: FsState, ops: seq<Op>): (t: FsState)
    ensures s.dirs <= t.dirs
    ensures s.aborted ==> t == s
    decreases |ops|
  {
    if |ops| == 0 then s else Apply(Run(s, ops[..|ops| - 1]), ops[|ops| - 1])
  }

  /** Running two sequences one after the other is running their concatenation. */
  lemma {:induction false} RunAppend(s: FsState, a: seq<Op>, b: seq<Op>)
    ensures Run(s, a + b) == Run(Run(s, a), b)
    decreases |b|
  {
    if |b| == 0 {
      assert a + b == a;
    } else {
      var b' := b[..|b| - 1];
      RunAppend(s, a, b');
      assert (a + b)[..|a + b| - 1] == a + b';
    }
  }

  /** Every directory the `mkdirs` calls of `ops` create, with their ancestors. */
  function Created(ops: seq<Op>): set<string>
    decreases |ops|
  {
    if |ops| == 0 then {}
    else Created(ops[..|ops| - 1]) + (match ops[|ops| - 1]
      case MakeDirs(p) => Lineage(p)
      case WriteText(_, _) => {})
  }

  /** The content each path holds after the writes of `ops`: the last write to a path wins. */
  function Written(ops: seq<Op>): map<string, DartFile>
    decreases |ops|
  {
    if |ops| == 0 then map[]
    else match ops[|ops| - 1]
      case MakeDirs(_) => Written(ops[..|ops| - 1])
      case WriteText(p, f) => Written(ops[..|ops| - 1])[p := f]
  }

  predicate AllMakeDirs(ops: seq<Op>) { forall i :: 0 <= i < |ops| ==> ops[i].MakeDirs? }

  predicate AllWrites(ops: seq<Op>) { forall i :: 0 <= i < |ops| ==> ops[i].WriteText? }

  /** A run of `mkdirs` calls adds exactly the directories they name and their ancestors. */
  lemma {:induction false} RunMakeDirs(s: FsState, ops: seq<Op>)
    requires !s.aborted && AllMakeDirs(ops)
    ensures Run(s, ops) == s.(dirs := s.dirs + Created(ops))
    decreases |ops|
  {
    if |ops| > 0 {
      RunMakeDirs(s, ops[..|ops| - 1]);
    }
  }

  /**
   * A run of writes whose parent directories all exist succeeds, leaves the
   * directories alone and overlays the written contents on the old files.
   */
  lemma {:induction false} RunWrites(s: FsState, ops: seq<Op>)
    requires !s.aborted && AllWrites(ops)
    requires forall i :: 0 <= i < |ops| ==> ParentExists(s, ops[i].path)
    ensures Run(s, ops) == s.(files := s.files + Written(ops))
    decreases |ops|
  {
    if |ops| > 0 {
      var init := ops[..|ops| - 1];
      RunWrites(s, init);
      var last := ops[|ops| - 1];
      assert ParentExists(Run(s, init), last.path);
      assert s.files + Written(ops) == (s.files + Written(init))[last.path := last.file];
    }
  }

  /** A later write to another path does not disturb what an earlier write left. */
  lemma {:induction false} WrittenAt(ops: seq<Op>, i: nat)
    requires AllWrites(ops) && i < |ops|
    requires forall j :: i < j < |ops| ==> ops[j].path != ops[i].path
    ensures ops[i].path in Written(ops) && Written(ops)[ops[i].path] == ops[i].file
    decreases |ops|
  {
    if i < |ops| - 1 {
      WrittenAt(ops[..|ops| - 1], i);
    }
  }

  /** The writes of `ops` touch exactly the paths they name. */
  lemma {:induction false} WrittenKeys(ops: seq<Op>)
    requires AllWrites(ops)
    ensures Written(ops).Keys == set i | 0 <= i < |ops| :: ops[i].path
    decreases |ops|
  {
    if |ops| > 0 {
      var init := ops[..|ops| - 1];
      WrittenKeys(init);
      forall i | 0 <= i < |ops|
        ensures ops[i].path in Written(init).Keys + {ops[|ops| - 1].path}
      {
        if i < |init| {
          assert init[i].path == ops[i].path;
        }
      }
    }
  }

  /**
   * `mkdirs` calls followed by writes that all land in a directory that
   * exists once the `mkdirs` calls are done: the directories are added and
   * the written contents overlay the old files.
   */
  lemma RunScaffold(s: FsState, d: seq<Op>, w: seq<Op>)
    requires !s.aborted && AllMakeDirs(d) && AllWrites(w)
    requires forall i :: 0 <= i < |w| ==> ParentExists(s.(dirs := s.dirs + Created(d)), w[i].path)
    ensures Run(s, d + w) == s.(dirs := s.dirs + Created(d), files := s.files + Written(w))
  {
    RunAppend(s, d, w);
    RunMakeDirs(s, d);
    RunWrites(s.(dirs := s.dirs + Created(d)), w);
  }

  /**
   * Scaffolding twice is scaffolding once: when every write of `w` lands in
   * a directory that exists once the `mkdirs` calls of `d` are done,
   * running `d + w` a second time changes nothing.
   */
  lemma RunTwice(s: FsState, d: seq<Op>, w: seq<Op>)
    requires !s.aborted && AllMakeDirs(d) && AllWrites(w)
    requires forall i :: 0 <= i < |w| ==> ParentExists(s.(dirs := s.dirs + Created(d)), w[i].path)
    ensures Run(Run(s, d + w), d + w) == Run(s, d + w)
  {
    RunScaffold(s, d, w);
    var once := s.(dirs := s.dirs + Created(d), files := s.files + Written(w));
    assert once.dirs + Created(d) == once.dirs;
    assert once.(dirs := once.dirs + Created(d)).dirs == s.(dirs := s.dirs + Created(d)).dirs;
    RunScaffold(once, d, w);
    assert once.files + Written(w) == once.files;
  }

  /** Performing one more call after a sequence is running the extended sequence. */
  lemma RunStep(s: FsState, ops: seq<Op>, k: nat, t: FsState)
    requires k < |ops| && t == Run(s, ops[..k])
    ensures Apply(t, ops[k]) == Run(s, ops[..k + 1])
  {
    assert ops[..k + 1][..k] == ops[..k];
  }

  /** Running every call of a sequence is running the sequence. */
  lemma RunWhole(s: FsState, ops: seq<Op>, k: nat, t: FsState)
    requires k == |ops| && t == Run(s, ops[..k])
    ensures t == Run(s, ops)
  {
    assert ops[..k] == ops;
  }

  /** The disk as the generator sees it: its directories, its files, and whether a write has thrown. */
  class Disk {
    var dirs: set<string>
    var files: map<string, DartFile>
    var aborted: bool

    function State(): FsState
      reads this
    {
      FsState(dirs, files, aborted)
    }

    constructor (s: FsState)
      ensures State() == s
    {
      dirs, files, aborted := s.dirs, s.files, s.aborted;
    }

    /** `File(path).mkdirs()` */
    method MakeDirs(path: string)
      modifies this
      ensures State() == Apply(old(State()), Op.MakeDirs(path))
    {
      if !aborted {
        dirs := dirs + Lineage(path);
      }
    }

    /** `File(path).writeText(content)` */
    method WriteText(path: string, file: DartFile)
      modifies this
      ensures State() == Apply(old(State()), Op.WriteText(path, file))
    {
      if !aborted {
        var k := LastSlash(path);
        if k < 0 || path[..k] in dirs {
          files := files[path := file];
        } else {
          aborted := true;
        }
      }
    }
  }
}

=== FILE: naming.dfy ===
/**
 * Name derivation: the three spellings of one feature name that every
 * generated file uses (snake case for files and import paths, the
 * capitalised name for Dart type names, the lower-cased application name
 * for the package root).
 *
 * Casing is modelled on ASCII letters only, where the pattern classes
 * `[a-z]` and `[A-Z]` of the snake-case rewrite are exact.
 */
module Naming {

  /** `[a-z]`: an ASCII lower-case letter. */
  predicate IsLower(c: char) { 'a' <= c <= 'z' }

  /** `[A-Z]`: an ASCII upper-case letter. */
  predicate IsUpper(c: char) { 'A' <= c <= 'Z' }

  function LowerChar(c: char): char {
    if IsUpper(c) then (c as int + 32) as char else c
  }

  function UpperChar(c: char): char {
    if IsLower(c) then (c as int - 32) as char else c
  }

  predicate HasNoUpper(s: string) { forall i :: 0 <= i < |s| ==> !IsUpper(s[i]) }

  /**
   * Kotlin's `lowercase()` on ASCII: every upper-case letter becomes its
   * lower-case partner and nothing else changes.
   */
  function Lowercase(s: string): (r: string)
    ensures |r| == |s| && HasNoUpper(r)
    ensures forall i :: 0 <= i < |s| && !IsUpper(s[i]) ==> r[i] == s[i]
    ensures forall i :: 0 <= i < |s| && IsUpper(s[i]) ==> IsLower(r[i]) && UpperChar(r[i]) == s[i]
  {
    seq(|s|, i requires 0 <= i < |s| => LowerChar(s[i]))
  }

  /** `replace(" ", "_")`: every space becomes an underscore. */
  function ReplaceSpaces(s: string): (r: string)
    ensures |r| == |s|
    ensures forall i :: 0 <= i < |s| ==> r[i] != ' '
    ensures forall i :: 0 <= i < |s| ==> (s[i] == ' ' ==> r[i] == '_') && (s[i] != ' ' ==> r[i] == s[i])
  {
    seq(|s|, i requires 0 <= i < |s| => if s[i] == ' ' then '_' else s[i])
  }

  /**
   * Length of the greedy `[A-Z]+` run at the front of `s` (zero when `s`
   * does not start with an upper-case letter): the run is all upper case
   * and the character after it, if any, is not.
   */
  function UpperRun(s: string): (k: nat)
    ensures k <= |s|
    ensures forall i :: 0 <= i < k ==> IsUpper(s[i])
    ensures k < |s| ==> !IsUpper(s[k])
  {
    if |s| > 0 && IsUpper(s[0]) then 1 + UpperRun(s[1..]) else 0
  }

  /**
   * `replace(Regex("([a-z])([A-Z]+)"), "$1_$2")`: the matcher scans left
   * to right; where a lower-case letter is followed by an upper-case run it
   * emits the letter, `_` and the whole (greedy) run, and resumes after the
   * run; elsewhere it copies one character and tries the next position.
   */
  function SplitCamel(s: string): (r: string)
    ensures |r| >= |s| && (|s| > 0 ==> r[0] == s[0])
    ensures forall c :: c in r ==> c == '_' || c in s
    decreases |s|
  {
    if |s| == 0 then ""
    else if |s| > 1 && IsLower(s[0]) && IsUpper(s[1]) then
      var k := 1 + UpperRun(s[1..]);
      var r := [s[0], '_'] + s[1..k] + SplitCamel(s[k..]);
      assert forall c :: c in r ==> c == '_' || c in s by {
        forall c | c in r
          ensures c == '_' || c in s
        {
          if c in s[1..k] {
            var j :| 0 <= j < k - 1 && s[1..k][j] == c;
            assert s[1 + j] == c;
          } else if c in SplitCamel(s[k..]) && c != '_' {
            var j :| 0 <= j < |s| - k && s[k..][j] == c;
            assert s[k + j] == c;
          }
        }
      }
      r
    else
      var r := [s[0]] + SplitCamel(s[1..]);
      assert forall c :: c in r ==> c == '_' || c in s by {
        forall c | c in r && c != '_' && c != s[0]
          ensures c in s
        {
          var j :| 0 <= j < |s| - 1 && s[1..][j] == c;
          assert s[1 + j] == c;
        }
      }
      r
  }

  /** A camel-case boundary: a lower-case letter directly before an upper-case one. */
  predicate CamelBoundary(a: char, b: char) { IsLower(a) && IsUpper(b) }

  /** Reference definition: one `_` between the two letters of every camel-case boundary. */
  function MarkBoundaries(s: string): string {
    if |s| < 2 then s
    else [s[0]] + (if CamelBoundary(s[0], s[1]) then "_" else "") + MarkBoundaries(s[1..])
  }

  /** The number of adjacent pairs of `s` that form a camel-case boundary. */
  function BoundaryCount(s: string): nat {
    if |s| < 2 then 0
    else (if CamelBoundary(s[0], s[1]) then 1 else 0) + BoundaryCount(s[1..])
  }

  lemma {:induction false} MarkBoundariesLength(s: string)
    ensures |MarkBoundaries(s)| == |s| + BoundaryCount(s)
  {
    if |s| >= 2 {
      MarkBoundariesLength(s[1..]);
    }
  }

  /** A stretch without lower-case letters holds no boundary before its last letter. */
  lemma {:induction false} MarkBoundariesSkipsRun(t: string, k: nat)
    requires 0 < k <= |t|
    requires forall i :: 0 <= i < k ==> !IsLower(t[i])
    ensures MarkBoundaries(t) == t[..k] + MarkBoundaries(t[k..])
  {
    if |t| == 1 {
      assert t[..k] == t && t[k..] == [];
    } else {
      assert !CamelBoundary(t[0], t[1]);
      assert MarkBoundaries(t) == [t[0]] + MarkBoundaries(t[1..]);
      if k == 1 {
        assert t[..1] == [t[0]] && t[1..] == t[k..];
      } else {
        MarkBoundariesSkipsRun(t[1..], k - 1);
        assert t[1..][..k - 1] == t[1..k] && t[1..][k - 1..] == t[k..];
        assert [t[0]] + t[1..k] == t[..k];
      }
    }
  }

  /** The left-to-right regex scan inserts exactly the boundary underscores. */
  lemma {:induction false} SplitCamelMarksBoundaries(s: string)
    ensures SplitCamel(s) == MarkBoundaries(s)
    decreases |s|
  {
    if |s| == 0 {
    } else if |s| > 1 && IsLower(s[0]) && IsUpper(s[1]) {
      var k := 1 + UpperRun(s[1..]);
      SplitCamelMarksBoundaries(s[k..]);
      MarkBoundariesSkipsRun(s[1..], k - 1);
      assert s[1..][..k - 1] == s[1..k] && s[1..][k - 1..] == s[k..];
    } else {
      SplitCamelMarksBoundaries(s[1..]);
      if |s| == 1 {
        assert s == [s[0]];
      }
    }
  }

  /** No adjacent pair of `s` forms a camel-case boundary. */
  predicate NoBoundary(s: string) {
    forall i :: 0 < i < |s| ==> !CamelBoundary(s[i - 1], s[i])
  }

  lemma {:induction false} MarkBoundariesNone(s: string)
    requires NoBoundary(s)
    ensures MarkBoundaries(s) == s
    decreases |s|
  {
    if |s| >= 2 {
      MarkBoundariesNone(s[1..]);
      assert [s[0]] + s[1..] == s;
    }
  }

  /**
   * Joining a word that ends in a lower-case letter to one that starts with
   * an upper-case letter puts exactly one underscore at the seam.
   */
  lemma {:induction false} MarkBoundariesJoin(a: string, b: string)
    requires |a| > 0 && |b| > 0 && NoBoundary(a)
    requires IsLower(a[|a| - 1]) && IsUpper(b[0])
    ensures MarkBoundaries(a + b) == a + "_" + MarkBoundaries(b)
    decreases |a|
  {
    var ab := a + b;
    assert ab[0] == a[0] && ab[1] == (if |a| == 1 then b[0] else a[1]);
    if |a| == 1 {
      assert ab[1..] == b;
      assert MarkBoundaries(ab) == [a[0]] + "_" + MarkBoundaries(b);
    } else {
      assert !CamelBoundary(a[0], a[1]);
      assert MarkBoundaries(ab) == [a[0]] + MarkBoundaries(ab[1..]);
      MarkBoundariesJoin(a[1..], b);
      assert ab[1..] == a[1..] + b;
      assert [a[0]] + (a[1..] + "_" + MarkBoundaries(b)) == a + "_" + MarkBoundaries(b);
    }
  }

  /** Without upper-case letters there is nothing for the regex to match. */
  lemma {:induction false} SplitCamelKeepsNoUpper(s: string)
    requires HasNoUpper(s)
    ensures SplitCamel(s) == s
    decreases |s|
  {
    if |s| > 0 {
      SplitCamelKeepsNoUpper(s[1..]);
      assert [s[0]] + s[1..] == s;
    }
  }

  /**
   * `toSnakeCase`: split camel-case boundaries, replace spaces, lower-case.
   * The result has no upper-case letter and no space, and is longer than
   * the input by one underscore per camel-case boundary.
   */
  function ToSnakeCase(s: string): (r: string)
    ensures |r| == |s| + BoundaryCount(s)
    ensures forall i :: 0 <= i < |r| ==> !IsUpper(r[i]) && r[i] != ' '
  {
    SplitCamelMarksBoundaries(s);
    MarkBoundariesLength(s);
    Lowercase(ReplaceSpaces(SplitCamel(s)))
  }

  /** The snake-case rewrite agrees with the boundary-marking reference definition. */
  lemma SnakeCaseByBoundaries(s: string)
    ensures ToSnakeCase(s) == Lowercase(ReplaceSpaces(MarkBoundaries(s)))
  {
    SplitCamelMarksBoundaries(s);
  }

  /**
   * Two camel-case words, the first ending in a lower-case letter and the
   * second starting with a capital, come out joined by a single `_`.
   */
  lemma SnakeCaseTwoWords(a: string, b: string)
    requires |a| > 0 && |b| > 0 && NoBoundary(a) && NoBoundary(b)
    requires IsLower(a[|a| - 1]) && IsUpper(b[0])
    ensures ToSnakeCase(a + b) == Lowercase(ReplaceSpaces(a + "_" + b))
  {
    SnakeCaseByBoundaries(a + b);
    MarkBoundariesJoin(a, b);
    MarkBoundariesNone(b);
  }

  /** Re-deriving a snake-case name changes nothing. */
  lemma {:induction false} SnakeCaseIdempotent(s: string)
    ensures ToSnakeCase(ToSnakeCase(s)) == ToSnakeCase(s)
  {
    SnakeCaseFixed(ToSnakeCase(s));
  }

  /** A name with neither capitals nor spaces is already in snake case. */
  lemma SnakeCaseFixed(t: string)
    requires HasNoUpper(t) && ' ' !in t
    ensures ToSnakeCase(t) == t
  {
    SplitCamelKeepsNoUpper(t);
    assert ReplaceSpaces(t) == t;
    assert Lowercase(t) == t;
  }

  /** Marking boundaries only adds underscores: every other character comes from the input. */
  lemma {:induction false} MarkBoundariesChars(s: string)
    ensures forall c :: c in MarkBoundaries(s) ==> c == '_' || c in s
    decreases |s|
  {
    if |s| >= 2 {
      MarkBoundariesChars(s[1..]);
      forall c | c in s[1..]
        ensures c in s
      {
        var i :| 0 <= i < |s[1..]| && s[1..][i] == c;
        assert s[i + 1] == c;
      }
    }
  }

  /** A feature name without `/` yields a snake-case name without `/`. */
  lemma SnakeCaseKeepsNoSlash(s: string)
    requires '/' !in s
    ensures '/' !in ToSnakeCase(s)
  {
    SnakeCaseByBoundaries(s);
    MarkBoundariesChars(s);
    var m := MarkBoundaries(s);
    var r := ToSnakeCase(s);
    forall i | 0 <= i < |r|
      ensures r[i] != '/'
    {
      assert m[i] in m;
    }
  }

  /**
   * Kotlin's `replaceFirstChar { if (it.isLowerCase()) it.titlecase() else
   * it.toString() }` on ASCII: only the first character may change, and it
   * changes exactly when it is a lower-case letter, into its capital.
   */
  function Capitalize(s: string): (r: string)
    ensures |r| == |s|
    ensures forall i :: 1 <= i < |s| ==> r[i] == s[i]
    ensures |s| > 0 ==> (r[0] != s[0] <==> IsLower(s[0]))
    ensures |s| > 0 ==> !IsLower(r[0])
    ensures |s| > 0 && IsLower(s[0]) ==> IsUpper(r[0]) && LowerChar(r[0]) == s[0]
  {
    if |s| > 0 && IsLower(s[0]) then [UpperChar(s[0])] + s[1..] else s
  }

  lemma CapitalizeIdempotent(s: string)
    ensures Capitalize(Capitalize(s)) == Capitalize(s)
  {
  }

  /**
   * Kotlin's `Char.isWhitespace()` on the JVM: a Unicode space, line or
   * paragraph separator, or one of the controls U+0009..U+000D and
   * U+001C..U+001F.
   */
  predicate IsWhitespace(c: char): (b: bool)
    ensures b ==> !IsLower(c) && !IsUpper(c) && !('0' <= c <= '9') && c != '_'
  {
    var n := c as int;
    n == 0x20 || 0x09 <= n <= 0x0D || 0x1C <= n <= 0x1F || n == 0xA0 || n == 0x1680
    || 0x2000 <= n <= 0x200A || n == 0x2028 || n == 0x2029 || n == 0x202F || n == 0x205F
    || n == 0x3000
  }

  /** `trimStart()`: the string without its leading whitespace. */
  function TrimStart(s: string): (t: string)
    ensures |t| <= |s| && t == s[|s| - |t|..]
    ensures |t| > 0 ==> !IsWhitespace(t[0])
    decreases |s|
  {
    if |s| > 0 && IsWhitespace(s[0]) then
      var t := TrimStart(s[1..]);
      assert s[1..][|s| - 1 - |t|..] == s[|s| - |t|..];
      t
    else s
  }

  /** Trimming the leading whitespace leaves nothing exactly when every character is whitespace. */
  lemma {:induction false} TrimStartEmpty(s: string)
    ensures TrimStart(s) == [] <==> forall i :: 0 <= i < |s| ==> IsWhitespace(s[i])
    decreases |s|
  {
    if |s| > 0 {
      TrimStartEmpty(s[1..]);
      if IsWhitespace(s[0]) {
        assert forall i :: 1 <= i < |s| ==> s[i] == s[1..][i - 1];
      }
    }
  }

  /** `isBlank()`: empty or whitespace only, so nothing is left once it is trimmed. */
  predicate IsBlank(s: string): (b: bool)
    ensures b <==> TrimStart(s) == []
  {
    TrimStartEmpty(s);
    forall i :: 0 <= i < |s| ==> IsWhitespace(s[i])
  }

  /** The name variants one invocation derives. */
  datatype Names = Names(snake: string, pascal: string, app: string)

  /**
   * The three variants derived from the raw feature name and the raw
   * application name: the snake-case name is free of capitals and spaces
   * and re-derives to itself, the type-name stem keeps the feature name's
   * length and starts with a non-lower-case character, and the package root
   * is free of capitals.
   */
  function DeriveNames(featureName: string, appName: string): (n: Names)
    ensures ToSnakeCase(n.snake) == n.snake
    ensures forall i :: 0 <= i < |n.snake| ==> !IsUpper(n.snake[i]) && n.snake[i] != ' '
    ensures |n.pascal| == |featureName| && (|featureName| > 0 ==> !IsLower(n.pascal[0]))
    ensures |n.app| == |appName| && HasNoUpper(n.app)
  {
    SnakeCaseIdempotent(featureName);
    Names(ToSnakeCase(featureName), Capitalize(featureName), Lowercase(appName))
  }
}

=== FILE: naming_examples.dfy ===
/** The worked examples of the naming conventions, checked against the definitions. */
module NamingExamples {
  import opened Naming

  /** A camel-case name splits at its one boundary. */
  lemma SnakeCaseUserProfile()
    ensures ToSnakeCase("UserProfile") == "user_profile"
  {
    assert "User" + "Profile" == "UserProfile";
    SnakeCaseTwoWords("User", "Profile");
    JoinedUserProfile();
  }

  lemma JoinedUserProfile()
    ensures Lowercase(ReplaceSpaces("User" + "_" + "Profile")) == "user_profile"
  {
    assert "User" + "_" + "Profile" == "User_Profile";
    assert ReplaceSpaces("User_Profile") == "User_Profile";
  }

  /** A run of capitals after a lower-case letter stays together: one `_`, before the run. */
  lemma SnakeCaseUpperRun()
    ensures ToSnakeCase("myABCFeature") == "my_abcfeature"
  {
    assert "my" + "ABCFeature" == "myABCFeature";
    SnakeCaseTwoWords("my", "ABCFeature");
    JoinedUpperRun();
  }

  lemma JoinedUpperRun()
    ensures Lowercase(ReplaceSpaces("my" + "_" + "ABCFeature")) == "my_abcfeature"
  {
    assert "my" + "_" + "ABCFeature" == "my_ABCFeature";
    assert ReplaceSpaces("my_ABCFeature") == "my_ABCFeature";
  }

  /** A name with no lower-to-upper boundary only changes case. */
  lemma SnakeCaseNoBoundary()
    ensures ToSnakeCase("feature") == "feature"
  {
    SnakeCaseFixed("feature");
  }

  lemma CapitalizeExamples()
    ensures Capitalize("settings") == "Settings"
    ensures Capitalize("UserProfile") == "UserProfile"
    ensures Capitalize("") == ""
  {
  }

  /** The application name is lower-cased as typed. */
  lemma LowercaseAppName()
    ensures Lowercase("MyApp") == "myapp"
    ensures Lowercase(" My App ") == " my app "
  {
  }
}

=== FILE: scaffold_engine.dfy ===
/**
 * The action itself: the guards on the selection and on the two dialog
 * replies, the `mkdirs` loop over the directory plan and the thirteen
 * writes, as a plan of file-system calls (a function of the inputs) and as
 * the imperative code that performs them on a `Disk`.
 */
module ScaffoldEngine {
  import opened Naming
  import opened DirectoryPlan
  import opened TemplateCatalog
  import opened FileSystem

  datatype Option<T> = None | Some(value: T)

  /** A dialog reply the action goes on with: not cancelled and not blank. */
  predicate Accepted(reply: Option<string>) {
    reply.Some? && !IsBlank(reply.value)
  }

  /**
   * The feature's base directory: `<selected>/<snake-case feature name>`.
   * When the feature name has no `/`, it lies directly in the selected
   * directory.
   */
  function BasePath(selectedPath: string, featureName: string): (b: string)
    ensures selectedPath + "/" <= b
    ensures '/' !in featureName ==> LastSlash(b) == |selectedPath| && b[..LastSlash(b)] == selectedPath
  {
    var b := selectedPath + "/" + ToSnakeCase(featureName);
    if '/' in featureName then b
    else
      SnakeCaseKeepsNoSlash(featureName);
      LastSlashAfter(selectedPath + "/", ToSnakeCase(featureName));
      b
  }

  /** One `mkdirs` per planned directory, in plan order, each under the base directory. */
  function DirectoryOps(basePath: string): (ops: seq<Op>)
    ensures |ops| == |Directories()| && AllMakeDirs(ops)
    ensures forall op :: op in ops ==> basePath + "/" <= op.path
  {
    seq(|Directories()|, i requires 0 <= i < |Directories()| => MakeDirs(basePath + "/" + Directories()[i]))
  }

  /** The write of one rendered template. */
  function WriteOp(basePath: string, r: Role, n: Names): Op {
    WriteText(basePath + "/" + Path(r, n.snake), Render(r, n))
  }

  /** The thirteen writes, in catalogue order. */
  function WriteOps(basePath: string, n: Names): (w: seq<Op>)
    ensures |w| == |Catalog()|
  {
    seq(|Catalog()|, i requires 0 <= i < |Catalog()| => WriteOp(basePath, Catalog()[i], n))
  }

  /** The catalogue's calls are all writes. */
  lemma WritesOnly(basePath: string, n: Names)
    ensures AllWrites(WriteOps(basePath, n))
  {
  }

  /**
   * Every file-system call one invocation makes, given the selected
   * directory (`None` when there is no project or no selection) and the
   * replies to the feature-name and application-name dialogs (`None` when
   * cancelled). The action does nothing at all unless the selection exists
   * and both replies are accepted; otherwise it makes eleven `mkdirs` calls
   * followed by thirteen writes.
   */
  function Plan(selected: Option<string>, featureReply: Option<string>, appReply: Option<string>): (ops: seq<Op>)
    ensures ops == [] <==> !(selected.Some? && Accepted(featureReply) && Accepted(appReply))
    ensures ops != [] ==> |ops| == 24 && AllMakeDirs(ops[..11]) && AllWrites(ops[11..])
  {
    if selected.None? || featureReply.None? || IsBlank(featureReply.value)
       || appReply.None? || IsBlank(appReply.value) then []
    else
      var basePath := BasePath(selected.value, featureReply.value);
      var ops := DirectoryOps(basePath) + WriteOps(basePath, DeriveNames(featureReply.value, appReply.value));
      WritesOnly(basePath, DeriveNames(featureReply.value, appReply.value));
      assert ops[..11] == DirectoryOps(basePath);
      assert ops[11..] == WriteOps(basePath, DeriveNames(featureReply.value, appReply.value));
      ops
  }

  lemma PrefixCancel(a: string, x: string, y: string)
    ensures a + x == a + y ==> x == y
  {
    if a + x == a + y {
      assert x == (a + x)[|a|..] && y == (a + y)[|a|..];
    }
  }

  /** The thirteen writes go to thirteen different paths. */
  lemma WritePathsDistinct(basePath: string, n: Names)
    ensures forall i, j :: 0 <= i < j < 13 ==> WriteOps(basePath, n)[i].path != WriteOps(basePath, n)[j].path
  {
    var c := Catalog();
    forall i, j | 0 <= i < j < 13
      ensures WriteOps(basePath, n)[i].path != WriteOps(basePath, n)[j].path
    {
      PathsDistinct(c[i], c[j], n.snake);
      PrefixCancel(basePath + "/", Path(c[i], n.snake), Path(c[j], n.snake));
    }
  }

  /** The last `/` of `a + b` is the one that ends `a` when `b` has none. */
  lemma {:induction false} LastSlashAfter(a: string, b: string)
    requires |a| > 0 && a[|a| - 1] == '/' && '/' !in b
    ensures LastSlash(a + b) == |a| - 1
    decreases |b|
  {
    if |b| == 0 {
      assert a + b == a;
    } else {
      assert (a + b)[|a + b| - 1] == b[|b| - 1];
      assert (a + b)[..|a + b| - 1] == a + b[..|b| - 1];
      LastSlashAfter(a, b[..|b| - 1]);
    }
  }

  /** A file named `base/dir/<name>` with no `/` in `<name>` lies in `base/dir`. */
  lemma ParentOfFile(basePath: string, dir: string, name: string)
    requires '/' !in name
    ensures var p := basePath + "/" + (dir + "/" + name);
      LastSlash(p) >= 0 && p[..LastSlash(p)] == basePath + "/" + dir
  {
    var a := basePath + "/" + dir + "/";
    var p := basePath + "/" + (dir + "/" + name);
    assert p == a + name;
    LastSlashAfter(a, name);
    assert p[..|a| - 1] == basePath + "/" + dir;
  }

  /** When the snake-case name has no `/`, each file's parent is its planned directory. */
  lemma ParentOfWrite(basePath: string, r: Role, snake: string)
    requires '/' !in snake
    ensures var p := basePath + "/" + Path(r, snake);
      LastSlash(p) >= 0 && p[..LastSlash(p)] == basePath + "/" + Dir(r)
  {
    var d, t := Dir(r), Tail(r);
    TailHasNoSlash(r);
    Regroup(d, snake, t);
    assert '/' !in snake + t;
    ParentOfFile(basePath, d, snake + t);
  }

  /** A `mkdirs` call creates the directory it names. */
  lemma {:induction false} CreatedIncludes(ops: seq<Op>, i: nat)
    requires i < |ops| && ops[i].MakeDirs?
    ensures ops[i].path in Created(ops)
    decreases |ops|
  {
    if i < |ops| - 1 {
      CreatedIncludes(ops[..|ops| - 1], i);
    }
  }

  /** Once the planned directories exist, the file of role `r` lands in an existing directory. */
  lemma WriteLands(s: FsState, basePath: string, r: Role, snake: string)
    requires '/' !in snake
    requires Created(DirectoryOps(basePath)) <= s.dirs
    ensures ParentExists(s, basePath + "/" + Path(r, snake))
  {
    ParentOfWrite(basePath, r, snake);
    CreatedIncludes(DirectoryOps(basePath), DirIndex(r));
  }

  /** After the `mkdirs` loop every write lands in an existing directory. */
  lemma WritesLandInPlannedDirectories(s: FsState, basePath: string, snake: string)
    requires '/' !in snake
    requires Created(DirectoryOps(basePath)) <= s.dirs
    ensures forall r :: ParentExists(s, basePath + "/" + Path(r, snake))
  {
    forall r
      ensures ParentExists(s, basePath + "/" + Path(r, snake))
    {
      WriteLands(s, basePath, r, snake);
    }
  }

  /** The `i`-th write goes to the file of the `i`-th role of the catalogue. */
  lemma WriteOpsPaths(s: FsState, basePath: string, n: Names)
    requires forall r :: ParentExists(s, basePath + "/" + Path(r, n.snake))
    ensures forall i :: 0 <= i < |WriteOps(basePath, n)| ==> ParentExists(s, WriteOps(basePath, n)[i].path)
  {
    var w, c := WriteOps(basePath, n), Catalog();
    forall i | 0 <= i < |w|
      ensures ParentExists(s, w[i].path)
    {
      assert w[i].path == basePath + "/" + Path(c[i], n.snake);
    }
  }

  /**
   * Every generated file holds its rendered template, and the writes touch
   * no path other than the thirteen generated ones.
   */
  lemma GeneratedFiles(basePath: string, n: Names)
    ensures forall r :: (basePath + "/" + Path(r, n.snake) in Written(WriteOps(basePath, n))
      && Written(WriteOps(basePath, n))[basePath + "/" + Path(r, n.snake)] == Render(r, n))
    ensures forall p :: p in Written(WriteOps(basePath, n)) ==> exists r :: p == basePath + "/" + Path(r, n.snake)
  {
    var w := WriteOps(basePath, n);
    var c := Catalog();
    WritePathsDistinct(basePath, n);
    CatalogComplete();
    forall r
      ensures basePath + "/" + Path(r, n.snake) in Written(w)
      ensures Written(w)[basePath + "/" + Path(r, n.snake)] == Render(r, n)
    {
      assert r in c;
      var i :| 0 <= i < |c| && c[i] == r;
      WrittenAt(w, i);
    }
    WrittenKeys(w);
    forall p | p in Written(w)
      ensures exists r :: p == basePath + "/" + Path(r, n.snake)
    {
      var i :| 0 <= i < |w| && w[i].path == p;
      assert p == basePath + "/" + Path(c[i], n.snake);
    }
  }

  /**
   * An accepted invocation's calls: the `mkdirs` loop under
   * `<selected>/<snake-case name>` followed by the thirteen writes of the
   * names derived from the two replies. A feature name free of `/` gives a
   * snake-case name free of `/`.
   */
  lemma PlanAccepted(selectedPath: string, featureName: string, appName: string)
    requires !IsBlank(featureName) && !IsBlank(appName)
    ensures Plan(Some(selectedPath), Some(featureName), Some(appName))
      == DirectoryOps(BasePath(selectedPath, featureName)) + WriteOps(BasePath(selectedPath, featureName), DeriveNames(featureName, appName))
    ensures '/' !in featureName ==> '/' !in DeriveNames(featureName, appName).snake
  {
    if '/' !in featureName {
      SnakeCaseKeepsNoSlash(featureName);
    }
  }

  /**
   * Scaffolding a feature on a disk where no write has thrown, with a
   * snake-case name that is a single path segment other than `.` and `..`
   * (paths are compared as strings): the planned directories and their
   * ancestors are added, the thirteen files are written on top of whatever
   * was there and every other file is left as it was. Running the same
   * calls again changes nothing.
   */
  lemma ScaffoldEffect(s: FsState, basePath: string, n: Names)
    requires !s.aborted && '/' !in n.snake && n.snake != "." && n.snake != ".."
    ensures Run(s, DirectoryOps(basePath) + WriteOps(basePath, n))
      == FsState(s.dirs + Created(DirectoryOps(basePath)), s.files + Written(WriteOps(basePath, n)), false)
    ensures Run(Run(s, DirectoryOps(basePath) + WriteOps(basePath, n)), DirectoryOps(basePath) + WriteOps(basePath, n))
      == Run(s, DirectoryOps(basePath) + WriteOps(basePath, n))
  {
    var d, w := DirectoryOps(basePath), WriteOps(basePath, n);
    WritesOnly(basePath, n);
    var s' := s.(dirs := s.dirs + Created(d));
    WritesLandInPlannedDirectories(s', basePath, n.snake);
    WriteOpsPaths(s', basePath, n);
    RunScaffold(s, d, w);
    RunTwice(s, d, w);
  }

  /** Every planned directory exists once the `mkdirs` loop is done. */
  lemma PlannedDirectoriesCreated(basePath: string)
    ensures forall d :: d in Directories() ==> basePath + "/" + d in Created(DirectoryOps(basePath))
  {
    var ds, ops := Directories(), DirectoryOps(basePath);
    forall d | d in ds
      ensures basePath + "/" + d in Created(ops)
    {
      var i :| 0 <= i < |ds| && ds[i] == d;
      CreatedIncludes(ops, i);
    }
  }

  /** A cancelled or blank dialog, or a missing selection, leaves the disk as it was. */
  lemma DeclinedChangesNothing(s: FsState, selected: Option<string>, featureReply: Option<string>, appReply: Option<string>)
    requires !(selected.Some? && Accepted(featureReply) && Accepted(appReply))
    ensures Run(s, Plan(selected, featureReply, appReply)) == s
  {
  }

  /**
   * What scaffolding under `basePath` with names `n` leaves behind, as
   * seen from the state `s` it started in: nothing threw, every planned
   * directory exists under the base directory, each of the thirteen paths
   * holds its rendered template, no other file appeared and every other file
   * kept its content.
   */
  predicate Scaffolded(s: FsState, t: FsState, basePath: string, n: Names) {
    && !t.aborted
    && (forall d :: d in Directories() ==> basePath + "/" + d in t.dirs)
    && (forall r :: basePath + "/" + Path(r, n.snake) in t.files
          && t.files[basePath + "/" + Path(r, n.snake)] == Render(r, n))
    && (forall p :: p in t.files && p !in s.files ==> exists r :: p == basePath + "/" + Path(r, n.snake))
    && (forall p :: p in s.files && (forall r :: p != basePath + "/" + Path(r, n.snake))
          ==> p in t.files && t.files[p] == s.files[p])
  }

  /**
   * The `mkdirs` loop and the thirteen writes, on a disk where no write has
   * thrown and with a snake-case name that is a single path segment other
   * than `.` and `..`, scaffold the feature.
   */
  lemma ScaffoldOutcome(s: FsState, basePath: string, n: Names)
    requires !s.aborted && '/' !in n.snake && n.snake != "." && n.snake != ".."
    ensures Scaffolded(s, Run(s, DirectoryOps(basePath) + WriteOps(basePath, n)), basePath, n)
  {
    var d, w := DirectoryOps(basePath), WriteOps(basePath, n);
    var t := Run(s, d + w);
    assert t == FsState(s.dirs + Created(d), s.files + Written(w), false) by {
      ScaffoldEffect(s, basePath, n);
    }
    assert forall x :: x in Directories() ==> basePath + "/" + x in t.dirs by {
      PlannedDirectoriesCreated(basePath);
    }
    assert forall r :: (basePath + "/" + Path(r, n.snake) in t.files
      && t.files[basePath + "/" + Path(r, n.snake)] == Render(r, n)) by {
      GeneratedFiles(basePath, n);
    }
    assert forall p :: p in t.files && p !in s.files ==> exists r :: p == basePath + "/" + Path(r, n.snake) by {
      GeneratedFiles(basePath, n);
    }
    forall p | p in s.files && (forall r :: p != basePath + "/" + Path(r, n.snake))
      ensures p in t.files && t.files[p] == s.files[p]
    {
      assert p !in Written(w) by {
        GeneratedFiles(basePath, n);
      }
    }
  }

  /**
   * An accepted invocation with a feature name free of `/` and `\` whose
   * snake-case form is not `.` or `..`, on a disk where no write has thrown, scaffolds
   * the feature under `<selected>/<snake-case name>` with the names derived
   * from the two replies.
   */
  lemma ActionEffect(s: FsState, selectedPath: string, featureName: string, appName: string)
    requires !s.aborted && !IsBlank(featureName) && !IsBlank(appName) && '/' !in featureName
    requires '\\' !in featureName
    requires ToSnakeCase(featureName) != "." && ToSnakeCase(featureName) != ".."
    ensures Scaffolded(s, Run(s, Plan(Some(selectedPath), Some(featureName), Some(appName))),
      BasePath(selectedPath, featureName), DeriveNames(featureName, appName))
  {
    var b, n := BasePath(selectedPath, featureName), DeriveNames(featureName, appName);
    PlanAccepted(selectedPath, featureName, appName);
    ScaffoldOutcome(s, b, n);
  }

  /**
   * One `File("$basePath/<dir>/<snake><suffix>").writeText(...)` call of
   * `generateTemplateClasses`: the `k`-th write of the catalogue, performed
   * after the first `k`.
   */
  method Emit(disk: Disk, basePath: string, n: Names, k: nat, ghost s0: FsState, ghost w: seq<Op>)
    requires k < |Catalog()| && w == WriteOps(basePath, n)
    requires disk.State() == Run(s0, w[..k])
    modifies disk
    ensures disk.State() == Run(s0, w[..k + 1])
  {
    var r := Catalog()[k];
    ghost var t := disk.State();
    disk.WriteText(basePath + "/" + Path(r, n.snake), Render(r, n));
    RunStep(s0, w, k, t);
  }

  /** `generateTemplateClasses`: derive the three names, then write the thirteen files in order. */
  method GenerateTemplateClasses(disk: Disk, basePath: string, featureName: string, appNameFromSet: string)
    modifies disk
    ensures disk.State() == Run(old(disk.State()), WriteOps(basePath, DeriveNames(featureName, appNameFromSet)))
  {
    var snakeCaseFeatureName := ToSnakeCase(featureName);
    var pascalCaseFeatureName := Capitalize(featureName);
    var appName := Lowercase(appNameFromSet);
    var n := Names(snakeCaseFeatureName, pascalCaseFeatureName, appName);
    ghost var s0, w := disk.State(), WriteOps(basePath, n);
    assert w[..0] == [];
    Emit(disk, basePath, n, 0, s0, w);  // DataStore
    Emit(disk, basePath, n, 1, s0, w);  // Request
    Emit(disk, basePath, n, 2, s0, w);  // Response
    Emit(disk, basePath, n, 3, s0, w);  // Api
    Emit(disk, basePath, n, 4, s0, w);  // RepositoryImpl
    Emit(disk, basePath, n, 5, s0, w);  // Model
    Emit(disk, basePath, n, 6, s0, w);  // Repository
    Emit(disk, basePath, n, 7, s0, w);  // UseCase
    Emit(disk, basePath, n, 8, s0, w);  // Event
    Emit(disk, basePath, n, 9, s0, w);  // UiState
    Emit(disk, basePath, n, 10, s0, w);  // ViewModel
    Emit(disk, basePath, n, 11, s0, w);  // Screen
    Emit(disk, basePath, n, 12, s0, w);  // ScreenContent
    RunWhole(s0, w, 13, disk.State());
  }

  /** `createDirectoryStructure`: `mkdirs` every planned directory, then generate the files. */
  method CreateDirectoryStructure(disk: Disk, basePath: string, featureName: string, appName: string)
    modifies disk
    ensures disk.State() == Run(old(disk.State()), DirectoryOps(basePath) + WriteOps(basePath, DeriveNames(featureName, appName)))
  {
    var directories := Directories();
    ghost var s0, d := disk.State(), DirectoryOps(basePath);
    var i := 0;
    while i < |directories|
      invariant 0 <= i <= |directories|
      invariant disk.State() == Run(s0, d[..i])
    {
      ghost var t := disk.State();
      disk.MakeDirs(basePath + "/" + directories[i]);
      RunStep(s0, d, i, t);
      i := i + 1;
    }
    RunWhole(s0, d, i, disk.State());
    GenerateTemplateClasses(disk, basePath, featureName, appName);
    RunAppend(s0, d, WriteOps(basePath, DeriveNames(featureName, appName)));
  }

  /**
   * `actionPerformed`: give up without touching the disk when there is no
   * selection or a dialog is cancelled or answered blank; otherwise build
   * the feature under `<selected>/<snake-case name>`. A write that threw
   * in an earlier invocation does not stop this one. The disk ends in the
   * state the plan of this invocation produces.
   */
  method ActionPerformed(disk: Disk, selected: Option<string>, featureReply: Option<string>, appReply: Option<string>)
    modifies disk
    ensures disk.State() == Run(old(disk.State()).(aborted := false), Plan(selected, featureReply, appReply))
  {
    disk.aborted := false;
    if selected.None? {
      return;
    }
    if featureReply.None? {
      return;
    }
    var featureName := featureReply.value;
    if IsBlank(featureName) {
      return;
    }
    if appReply.None? {
      return;
    }
    var appName := appReply.value;
    if IsBlank(appName) {
      return;
    }
    var basePath := BasePath(selected.value, featureName);
    CreateDirectoryStructure(disk, basePath, featureName, appName);
  }
}

=== FILE: template_catalog.dfy ===
/**
 * The catalogue of the thirteen generated Dart files. Each template is kept
 * as a record of what matters for cross-file consistency: the path it is
 * written to, the libraries, feature files and core files it imports, the
 * `part` files it names, the feature-named identifiers it declares and the
 * feature-named identifiers it uses. Everything is a function of the three
 * name variants of one invocation.
 */
module TemplateCatalog {
  import opened Naming
  import opened DirectoryPlan

  /** One generated file per role. */
  datatype Role =
    | DataStore | Request | Response | Api | RepositoryImpl
    | Model | Repository | UseCase
    | Event | UiState | ViewModel | Screen | ScreenContent

  /** The record a template renders to. */
  datatype DartFile = DartFile(
    path: string,             // relative to the feature's base directory
    libraries: seq<string>,   // third-party `package:` imports
    imports: seq<string>,     // imports inside the application's own package
    parts: seq<string>,       // `part` directives (code-generator output)
    declares: seq<string>,    // feature-named classes, members, fields and functions declared
    references: seq<string>)  // feature-named identifiers used

  /** The thirteen files, in the order they are written. */
  function Catalog(): (c: seq<Role>)
    ensures |c| == 13
    ensures forall i, j :: 0 <= i < j < |c| ==> c[i] != c[j]
  {
    [DataStore, Request, Response, Api, RepositoryImpl, Model, Repository, UseCase,
     Event, UiState, ViewModel, Screen, ScreenContent]
  }

  /** Every role is in the catalogue. */
  lemma CatalogComplete()
    ensures forall r: Role :: r in Catalog()
  {
    var c := Catalog();
    forall r: Role
      ensures r in c
    {
      match r
      case DataStore => assert c[0] == r;
      case Request => assert c[1] == r;
      case Response => assert c[2] == r;
      case Api => assert c[3] == r;
      case RepositoryImpl => assert c[4] == r;
      case Model => assert c[5] == r;
      case Repository => assert c[6] == r;
      case UseCase => assert c[7] == r;
      case Event => assert c[8] == r;
      case UiState => assert c[9] == r;
      case ViewModel => assert c[10] == r;
      case Screen => assert c[11] == r;
      case ScreenContent => assert c[12] == r;
    }
  }

  /** The position, in the directory plan, of the directory a file goes into. */
  function DirIndex(r: Role): (k: nat)
    ensures k < |Directories()|
  {
    match r
    case DataStore => 0
    case Request => 1
    case Response => 1
    case Api => 2
    case RepositoryImpl => 3
    case Model => 4
    case Repository => 5
    case UseCase => 6
    case Event => 7
    case UiState => 8
    case ViewModel => 9
    case Screen => 10
    case ScreenContent => 10
  }

  /** The planned directory a file goes into. */
  function Dir(r: Role): string {
    Directories()[DirIndex(r)]
  }

  /** What follows the snake-case name in a file name: `_<role>.dart`. */
  function Tail(r: Role): string {
    match r
    case DataStore => "_data_store.dart"
    case Request => "_request.dart"
    case Response => "_response.dart"
    case Api => "_api.dart"
    case RepositoryImpl => "_repository_impl.dart"
    case Model => "_model.dart"
    case Repository => "_repository.dart"
    case UseCase => "_usecase.dart"
    case Event => "_event.dart"
    case UiState => "_ui_state.dart"
    case ViewModel => "_view_model.dart"
    case Screen => "_screen.dart"
    case ScreenContent => "_screen_content.dart"
  }

  /**
   * The path, below the feature's base directory, that a file is written
   * to: its planned directory, then `<snake>_<role>.dart`.
   */
  function Path(r: Role, snake: string): (p: string)
    ensures Dir(r) + "/" <= p && p[|Dir(r)| + 1..] == snake + Tail(r)
  {
    var p := Dir(r) + "/" + snake + Tail(r);
    assert p == (Dir(r) + "/") + (snake + Tail(r));
    p
  }

  /** A path spelled out with its directory and tail written as literals is the path of that role. */
  lemma Scheme(r: Role, dir: string, snake: string, tail: string)
    requires dir == Dir(r) + "/" && tail == Tail(r)
    ensures dir + snake + tail == Path(r, snake)
  {
  }

  /** A path that starts with a planned directory and `/` determines that directory. */
  lemma {:induction false} SameDirectory(d1: string, d2: string, t1: string, t2: string)
    requires d1 in Directories() && d2 in Directories()
    requires d1 + "/" + t1 == d2 + "/" + t2
    ensures d1 == d2 && t1 == t2
  {
    DirectoriesNotNested();
    var p := d1 + "/" + t1;
    if |d1| <= |d2| {
      assert d1 + "/" <= d2 + "/" by {
        assert d1 + "/" == p[..|d1| + 1];
        assert p[..|d1| + 1] == (d2 + "/" + t2)[..|d1| + 1] == (d2 + "/")[..|d1| + 1];
      }
    } else {
      assert d2 + "/" <= d1 + "/" by {
        assert d2 + "/" == (d2 + "/" + t2)[..|d2| + 1];
        assert p[..|d2| + 1] == (d1 + "/")[..|d2| + 1];
      }
    }
    assert t1 == p[|d1| + 1..];
  }

  /** Two files in the same directory have tails of different lengths. */
  lemma SharedDirectory(r1: Role, r2: Role)
    requires DirIndex(r1) == DirIndex(r2)
    ensures r1 == r2 || |Tail(r1)| != |Tail(r2)|
  {
  }

  /** Different roles never share a path, whatever the snake-case name. */
  lemma {:induction false} PathInjective(r1: Role, r2: Role, snake: string)
    requires Path(r1, snake) == Path(r2, snake)
    ensures r1 == r2
  {
    var d1, d2, t1, t2 := Dir(r1), Dir(r2), Tail(r1), Tail(r2);
    Regroup(d1, snake, t1);
    Regroup(d2, snake, t2);
    SameDirectory(d1, d2, snake + t1, snake + t2);
    assert t1 == (snake + t1)[|snake|..] && t2 == (snake + t2)[|snake|..];
    DirectoriesDistinct();
    assert DirIndex(r1) == DirIndex(r2);
    SharedDirectory(r1, r2);
  }

  /** Distinct roles are written to distinct paths. */
  lemma PathsDistinct(r1: Role, r2: Role, snake: string)
    ensures r1 != r2 ==> Path(r1, snake) != Path(r2, snake)
  {
    if Path(r1, snake) == Path(r2, snake) {
      PathInjective(r1, r2, snake);
    }
  }

  /** No tail holds a `/`, so a file lies directly in its planned directory. */
  lemma TailHasNoSlash(r: Role)
    ensures '/' !in Tail(r)
  {
  }

  lemma Regroup(d: string, snake: string, t: string)
    ensures d + "/" + snake + t == d + "/" + (snake + t)
  {
  }

  /** Every planned directory receives at least one generated file. */
  lemma EveryDirectoryUsed()
    ensures forall d :: d in Directories() ==> exists r :: Dir(r) == d
  {
    var ds := Directories();
    assert Dir(DataStore) == ds[0] && Dir(Request) == ds[1] && Dir(Api) == ds[2];
    assert Dir(RepositoryImpl) == ds[3] && Dir(Model) == ds[4] && Dir(Repository) == ds[5];
    assert Dir(UseCase) == ds[6] && Dir(Event) == ds[7] && Dir(UiState) == ds[8];
    assert Dir(ViewModel) == ds[9] && Dir(Screen) == ds[10];
  }

  /** `package:<app>/features/<snake>/<tail>` */
  function FeatureImport(n: Names, tail: string): (u: string)
    ensures "package:" + n.app + "/" <= u
  {
    var u := "package:" + n.app + "/features/" + n.snake + "/" + tail;
    assert u == ("package:" + n.app + "/") + ("features/" + n.snake + "/" + tail);
    u
  }

  /** `package:<app>/core/<tail>` */
  function CoreImport(n: Names, tail: string): (u: string)
    ensures "package:" + n.app + "/" <= u
  {
    var u := "package:" + n.app + "/core/" + tail;
    assert u == ("package:" + n.app + "/") + ("core/" + tail);
    u
  }

  /** The application-wide helpers the screen imports from outside the feature. */
  function CoreImports(n: Names): seq<string> {
    [CoreImport(n, "resources/app_strings.dart"),
     CoreImport(n, "widgets/error_widget.dart"),
     CoreImport(n, "widgets/loading_widget.dart")]
  }

  /** The JSON annotations library, which the code generator's `part` files need. */
  const JsonAnnotation := "package:json_annotation/json_annotation.dart"

  /**
   * Third-party libraries each file imports: all of them are packages, and
   * the JSON annotations are imported exactly by the two files that are
   * (de)serialised by generated code.
   */
  function Libraries(r: Role): (ls: seq<string>)
    ensures forall l :: l in ls ==> "package:" <= l
    ensures JsonAnnotation in ls <==> r == Request || r == Response
  {
    match r
    case DataStore => ["package:shared_preferences/shared_preferences.dart"]
    case Request => [JsonAnnotation]
    case Response => [JsonAnnotation]
    case Api => ["package:dio/dio.dart"]
    case ViewModel => ["package:flutter/cupertino.dart", "package:rxdart/rxdart.dart"]
    case Screen => ["package:flutter/material.dart", "package:get_it/get_it.dart"]
    case ScreenContent => ["package:flutter/material.dart"]
    case _ => []
  }

  /**
   * The imports inside the application's package, in the order each file
   * lists them: all inside `package:<app>/`, one per generated file it
   * depends on, and for the screen three core helpers besides.
   */
  function Imports(r: Role, n: Names): (us: seq<string>)
    ensures forall u :: u in us ==> "package:" + n.app + "/" <= u
    ensures |us| == (if r == Screen then 3 else 0) + |ImportedRoles(r)|
  {
    var S := n.snake;
    match r
    case Response => [FeatureImport(n, "domain/entities/" + S + "_model.dart")]
    case RepositoryImpl =>
      [FeatureImport(n, "domain/entities/" + S + "_model.dart"),
       FeatureImport(n, "data/entities/" + S + "_response.dart"),
       FeatureImport(n, "data/network/" + S + "_api.dart"),
       FeatureImport(n, "domain/repository/" + S + "_repository.dart")]
    case Repository => [FeatureImport(n, "domain/entities/" + S + "_model.dart")]
    case UseCase =>
      [FeatureImport(n, "domain/repository/" + S + "_repository.dart"),
       FeatureImport(n, "domain/entities/" + S + "_model.dart")]
    case Event => [FeatureImport(n, "domain/entities/" + S + "_model.dart")]
    case UiState => [FeatureImport(n, "domain/entities/" + S + "_model.dart")]
    case ViewModel =>
      [FeatureImport(n, "data/data_store/" + S + "_data_store.dart"),
       FeatureImport(n, "domain/usecases/" + S + "_usecase.dart"),
       FeatureImport(n, "presentation/event/" + S + "_event.dart"),
       FeatureImport(n, "presentation/state/" + S + "_ui_state.dart")]
    case Screen =>
      CoreImports(n) +
      [FeatureImport(n, "presentation/event/" + S + "_event.dart"),
       FeatureImport(n, "presentation/state/" + S + "_ui_state.dart"),
       FeatureImport(n, "presentation/viewmodel/" + S + "_view_model.dart"),
       FeatureImport(n, "presentation/widgets/" + S + "_screen_content.dart")]
    case _ => []
  }

  /**
   * `part` directives: the files the JSON code generator produces, named
   * after the feature. Only the request and the response have one.
   */
  function Parts(r: Role, n: Names): (ps: seq<string>)
    ensures |ps| <= 1 && (ps != [] <==> r == Request || r == Response)
    ensures forall p :: p in ps ==> n.snake <= p
  {
    match r
    case Request => [n.snake + "_request.g.dart"]
    case Response => [n.snake + "_response.g.dart"]
    case _ => []
  }

  /**
   * A `part` directive names the file's own name with its `.dart` extension
   * replaced by `.g.dart`, which is where the JSON code generator puts the
   * code for that file.
   */
  lemma PartsNameTheirFile(r: Role, n: Names)
    requires r == Request || r == Response
    ensures |Tail(r)| > 5 && Tail(r)[|Tail(r)| - 5..] == ".dart"
    ensures Parts(r, n) == [n.snake + Tail(r)[..|Tail(r)| - 5] + ".g.dart"]
  {
    if r == Request {
      assert Tail(r)[..|Tail(r)| - 5] == "_request";
      assert n.snake + "_request.g.dart" == n.snake + "_request" + ".g.dart";
    } else {
      assert Tail(r)[..|Tail(r)| - 5] == "_response";
      assert n.snake + "_response.g.dart" == n.snake + "_response" + ".g.dart";
    }
  }

  /**
   * The feature-named classes, members and functions each file declares;
   * the first is the one the file is named after.
   */
  function Declares(r: Role, n: Names): (ds: seq<string>)
    ensures |ds| > 0 && (if r == ScreenContent then n.snake else n.pascal) <= ds[0]
  {
    var P := n.pascal;
    match r
    case DataStore => [P + "DataStore"]
    case Request => [P + "Request"]
    case Response => [P + "Response"]
    case Api => [P + "Api", "get" + P + "Data"]
    case RepositoryImpl => [P + "RepositoryImpl", "get" + P]
    case Model => [P + "Model"]
    case Repository => [P + "Repository", "get" + P]
    case UseCase => [P + "UseCase"]
    case Event => [P + "Event", "Load" + P + "Data", "Refresh" + P + "Data"]
    case UiState => [P + "UiState", P + "Loading", P + "Success", n.snake + "Model", P + "Error"]
    case ViewModel => [P + "ViewModel"]
    case Screen => [P + "Screen", "_" + P + "ScreenState"]
    case ScreenContent => [n.snake + "ScreenContent"]
  }

  /**
   * The feature-named identifiers each file uses. Each is declared in that
   * file or in a generated file it imports directly (Dart imports are not
   * transitive).
   */
  function References(r: Role, n: Names): (us: seq<string>)
    ensures forall x :: x in us ==>
      x in Declares(r, n) || exists t :: t in ImportedRoles(r) && x in Declares(t, n)
  {
    var P := n.pascal;
    match r
    case Response =>
      assert P + "Model" in Declares(Model, n);
      [P + "Model"]
    case RepositoryImpl =>
      assert P + "Repository" in Declares(Repository, n);
      assert P + "Api" in Declares(Api, n) && "get" + P + "Data" in Declares(Api, n);
      assert P + "Model" in Declares(Model, n);
      assert P + "Response" in Declares(Response, n);
      [P + "Repository", P + "Api", P + "Model", "get" + P, "get" + P + "Data", P + "Response"]
    case Repository =>
      assert P + "Model" in Declares(Model, n);
      [P + "Model"]
    case UseCase =>
      assert P + "Repository" in Declares(Repository, n) && "get" + P in Declares(Repository, n);
      assert P + "Model" in Declares(Model, n);
      [P + "Repository", P + "Model", "get" + P]
    case Event => [P + "Event"]
    case UiState =>
      assert P + "Model" in Declares(Model, n);
      [P + "UiState", P + "Model", n.snake + "Model"]
    case ViewModel =>
      assert P + "DataStore" in Declares(DataStore, n);
      assert P + "UseCase" in Declares(UseCase, n);
      assert P + "Event" in Declares(Event, n) && "Load" + P + "Data" in Declares(Event, n)
        && "Refresh" + P + "Data" in Declares(Event, n);
      assert P + "UiState" in Declares(UiState, n) && P + "Loading" in Declares(UiState, n)
        && P + "Success" in Declares(UiState, n) && P + "Error" in Declares(UiState, n);
      [P + "UseCase", P + "DataStore", P + "UiState", P + "Loading", P + "Event",
       "Load" + P + "Data", "Refresh" + P + "Data", P + "Success", P + "Error"]
    case Screen =>
      assert "Load" + P + "Data" in Declares(Event, n);
      assert P + "ViewModel" in Declares(ViewModel, n);
      assert n.snake + "ScreenContent" in Declares(ScreenContent, n);
      assert P + "UiState" in Declares(UiState, n) && P + "Loading" in Declares(UiState, n)
        && P + "Success" in Declares(UiState, n) && P + "Error" in Declares(UiState, n);
      [P + "Screen", "_" + P + "ScreenState", P + "ViewModel", "Load" + P + "Data",
       P + "UiState", P + "Loading", P + "Success", n.snake + "ScreenContent", P + "Error"]
    case _ => []
  }

  /**
   * Renders one template against the name variants of an invocation. The
   * file lies in its planned directory, and it imports the JSON annotations
   * exactly when it has a `part` directive for generated code.
   */
  function Render(r: Role, n: Names): (f: DartFile)
    ensures Dir(r) + "/" <= f.path
    ensures f.parts != [] <==> JsonAnnotation in f.libraries
  {
    DartFile(Path(r, n.snake), Libraries(r), Imports(r, n), Parts(r, n),
             Declares(r, n), References(r, n))
  }

  /** The import inside the application's package that names the file of role `t`. */
  function FeatureUri(n: Names, t: Role): string {
    FeatureImport(n, Path(t, n.snake))
  }

  /** Each planned directory as the generator spells it in paths, with its trailing `/`. */
  lemma DirSpellings()
    ensures Dir(DataStore) + "/" == "data/data_store/"
    ensures Dir(RepositoryImpl) + "/" == "data/repositories/"
    ensures Dir(Request) + "/" == "data/entities/"
    ensures Dir(Response) + "/" == "data/entities/"
    ensures Dir(Api) + "/" == "data/network/"
    ensures Dir(Model) + "/" == "domain/entities/"
    ensures Dir(Repository) + "/" == "domain/repository/"
    ensures Dir(UseCase) + "/" == "domain/usecases/"
    ensures Dir(Event) + "/" == "presentation/event/"
    ensures Dir(UiState) + "/" == "presentation/state/"
    ensures Dir(ViewModel) + "/" == "presentation/viewmodel/"
    ensures Dir(Screen) + "/" == "presentation/widgets/"
    ensures Dir(ScreenContent) + "/" == "presentation/widgets/"
  {
  }

  /** An import spelled with a role's directory and tail is the import of that role's file. */
  lemma ImportNames(n: Names, t: Role, dir: string, tail: string)
    requires dir == Dir(t) + "/" && tail == Tail(t)
    ensures FeatureImport(n, dir + n.snake + tail) == FeatureUri(n, t)
  {
    Scheme(t, dir, n.snake, tail);
  }

  /** The generated files each file imports, in the order of its import list. */
  function ImportedRoles(r: Role): seq<Role> {
    match r
    case Response => [Model]
    case RepositoryImpl => [Model, Response, Api, Repository]
    case Repository => [Model]
    case UseCase => [Repository, Model]
    case Event => [Model]
    case UiState => [Model]
    case ViewModel => [DataStore, UseCase, Event, UiState]
    case Screen => [Event, UiState, ViewModel, ScreenContent]
    case _ => []
  }

  /** The imports of the files of roles `ts`, in order. */
  function Uris(n: Names, ts: seq<Role>): (us: seq<string>)
    ensures |us| == |ts|
    ensures forall i :: 0 <= i < |ts| ==> us[i] == FeatureUri(n, ts[i])
  {
    seq(|ts|, i requires 0 <= i < |ts| => FeatureUri(n, ts[i]))
  }

  /**
   * The import list of every file inside the application's package is
   * exactly: for the screen, the three core helpers; then the paths the
   * generator writes the files of its imported roles to.
   */
  lemma ImportsResolve(r: Role, n: Names)
    ensures Imports(r, n) == (if r == Screen then CoreImports(n) else []) + Uris(n, ImportedRoles(r))
  {
    DirSpellings();
    match r
    case Response =>
      ImportNames(n, Model, "domain/entities/", "_model.dart");
    case RepositoryImpl =>
      RepositoryImplImports(n);
    case Repository =>
      ImportNames(n, Model, "domain/entities/", "_model.dart");
    case UseCase =>
      ImportNames(n, Repository, "domain/repository/", "_repository.dart");
      ImportNames(n, Model, "domain/entities/", "_model.dart");
    case Event =>
      ImportNames(n, Model, "domain/entities/", "_model.dart");
    case UiState =>
      ImportNames(n, Model, "domain/entities/", "_model.dart");
    case ViewModel =>
      ViewModelImports(n);
    case Screen =>
      ScreenImports(n);
    case _ =>
  }

  lemma RepositoryImplImports(n: Names)
    ensures Imports(RepositoryImpl, n) == Uris(n, ImportedRoles(RepositoryImpl))
  {
    DirSpellings();
    ImportNames(n, Model, "domain/entities/", "_model.dart");
    ImportNames(n, Response, "data/entities/", "_response.dart");
    ImportNames(n, Api, "data/network/", "_api.dart");
    ImportNames(n, Repository, "domain/repository/", "_repository.dart");
  }

  lemma ViewModelImports(n: Names)
    ensures Imports(ViewModel, n) == Uris(n, ImportedRoles(ViewModel))
  {
    DirSpellings();
    ImportNames(n, DataStore, "data/data_store/", "_data_store.dart");
    ImportNames(n, UseCase, "domain/usecases/", "_usecase.dart");
    ImportNames(n, Event, "presentation/event/", "_event.dart");
    ImportNames(n, UiState, "presentation/state/", "_ui_state.dart");
  }

  lemma ScreenImports(n: Names)
    ensures Imports(Screen, n) == CoreImports(n) + Uris(n, ImportedRoles(Screen))
  {
    DirSpellings();
    ImportNames(n, Event, "presentation/event/", "_event.dart");
    ImportNames(n, UiState, "presentation/state/", "_ui_state.dart");
    ImportNames(n, ViewModel, "presentation/viewmodel/", "_view_model.dart");
    ImportNames(n, ScreenContent, "presentation/widgets/", "_screen_content.dart");
  }

  /**
   * The domain layer depends on nothing outside it: a file under `domain/`
   * imports only files under `domain/`.
   */
  lemma DomainIsIndependent(r: Role)
    ensures "domain/" <= Dir(r) ==> forall t :: t in ImportedRoles(r) ==> "domain/" <= Dir(t)
  {
    var ds := Directories();
    if DirIndex(r) < 4 {
      assert Dir(r)[1] == 'a';
    } else if DirIndex(r) < 7 {
      assert Dir(Model) == ds[4] && Dir(Repository) == ds[5];
      assert "domain/" <= ds[4] && "domain/" <= ds[5];
    } else {
      assert Dir(r)[0] == 'p';
    }
  }

  /** A topological order of the import graph: every import goes to a lower rank. */
  function Rank(r: Role): nat {
    match r
    case DataStore => 0
    case Request => 0
    case Api => 0
    case Model => 0
    case ScreenContent => 0
    case Response => 1
    case Repository => 1
    case Event => 1
    case UiState => 1
    case UseCase => 2
    case RepositoryImpl => 2
    case ViewModel => 3
    case Screen => 4
  }

  /** The files import one another without a cycle. */
  lemma ImportsAcyclic(r: Role, t: Role)
    requires t in ImportedRoles(r)
    ensures Rank(t) < Rank(r)
  {
  }
}
